=== FILE: README.md ===
# DTN bundle custody bookkeeping

A Dafny model of the delay-tolerant-networking bundle manager of the
ground-station backend (`backend/dtn_bundle_manager.py`). A *bundle* is a
message created at a ground station. It carries a priority (EXPEDITED, NORMAL
or BULK), a status (QUEUED, TRANSMITTING, DELIVERED, FORWARDED or EXPIRED), a
time-to-live in hours, a current custodian and the list of stations it has
passed through (its *hops*). `DTNBundleManager` holds:

- the configured stations;
- the bundles, keyed by id;
- one queue of bundle ids per station.

Its methods create bundles, transmit a bundle (delivering it to the ISS or
to its destination, or forwarding it to another station's queue), read a
station's queue sorted by priority, process a contact opportunity, and sweep
expired bundles.

The model has five modules:

- `Bundles` (`bundle.dfy`): the bundle record and its enumerations, the TTL
  test `IsExpired`, the `to_dict` view `ToRecord` and the case-insensitive
  priority parsing.
- `QueueOrder` (`queue_order.dfy`): the stable sort of a queue view by
  priority rank.
- `Seqs` (`seqs.dfy`): Python's `list.remove` (first occurrence only) and
  filtering a list by a set of ids.
- `Custody` (`custody.dfy`): every manager operation as a function on the
  state value `Store(bundles, queues)`, with the invariant `Inv` and the
  lemmas that state what each operation promises.
- `Manager` (`manager.dfy`): the class `BundleManager`, whose fields
  `stations`, `bundles` and `queues` its methods change in place. Each
  method's `ensures` ties the new state to a function of the old state
  (most often the matching `Custody` operation; the constructor builds its
  table with `StationNames`, and `DropFromQueues` applies `Seqs.RemoveFirst`
  to each queue), and each public method (one the source defines) also
  keeps `Valid()` (the invariant `Inv`).

The invariant `Inv` says:

- the queues are exactly those of the configured stations;
- every stored bundle is filed under its own id;
- its hops have no repetition and include its custodian;
- it is never left in the transient statuses TRANSMITTING or FORWARDED;
- it has a delivery time once DELIVERED;
- no queue repeats an id;
- every queued id names a stored bundle that has passed through that station.

Time is a parameter `now` in integer seconds. The bundle id that the
source draws from `uuid.uuid4()` is a parameter `id` that must be new.

The model follows the code's bundle lifecycle, which is looser than one
might expect from the status names:

- DELIVERED and EXPIRED are not enforced as terminal:
  - `transmit_bundle` does not look at the status, so an EXPIRED bundle can
    still be delivered (`TransmitDelivers` has no status precondition);
  - `get_station_queue` marks any expired bundle in the queue EXPIRED, even
    one that is DELIVERED but still queued at a station other than the one
    it was delivered from (`Sweep`).
- A forwarded bundle ends QUEUED, not FORWARDED. FORWARDED and
  TRANSMITTING are only passed through inside `transmit_bundle`, which is
  why `Inv` can exclude them.
- A station is appended to the hops on every successful transmission,
  including delivery to the ISS, not only when a station takes custody.

## Model

Some helpers have no row of their own because they are parts of the
operations listed below:

- `Bundles.UpperChar` is `str.upper` on one character, used by `Upper`.
- `Custody.DeliverTo` and `Custody.ForwardTo` are the bundle field updates of
  `Deliver` and `Forward`.
- `Custody.Doomed` is the test of line 199, used by `Cleanup`.
- `Custody.LiveRecords` is the list built at lines 147-151, used by
  `StationQueue`.
- `Custody.Accepted` is the accepted set of the closed form
  `DeliveredAll`.
- `Custody.QueuedAt` is the queue read at line 144.

| member | source | states |
|---|---|---|
| Bundles.IsExpired | backend/dtn_bundle_manager.py:34-37 | `is_expired`: strictly more than `ttl_hours` hours since creation; a bundle with a non-negative TTL is never expired at or before its creation, nor at the exact moment its TTL runs out |
| Bundles.ExpiryIsMonotone | backend/dtn_bundle_manager.py:34-37 | A bundle is expired once strictly more than `ttl_hours` hours have passed since creation, and stays expired as time goes on |
| Bundles.ShortId | backend/dtn_bundle_manager.py:42 | `bundle_id[:8]` is a prefix of the id of length min(8, length of the id) |
| Bundles.ToRecord | backend/dtn_bundle_manager.py:39-55 | The dictionary view carries the id, `bundle_id[:8]` as the short id (`ShortId`: the prefix of length min(8, length of the id)), a priority that is one of the three names, and `now - created_at` as the age, which is non-negative exactly when `now` is not before creation |
| Bundles.Upper | backend/dtn_bundle_manager.py:73-75 | `str.upper` keeps the length of the string; UpperMatchesWord states its content |
| Bundles.UpperMatchesWord | backend/dtn_bundle_manager.py:73-75 | For an upper-case word, `s.upper() == word` holds exactly when `s` spells the word with each letter in either case |
| Bundles.ParsePriorityCases | backend/dtn_bundle_manager.py:72-76 | The parsed priority is EXPEDITED exactly for "EXPEDITED" in any letter case, BULK exactly for "BULK" in any letter case, and NORMAL for every other string |
| Bundles.ParsePriority | backend/dtn_bundle_manager.py:72-76 | The priority chosen by `create_bundle`: a name that upper-cases to one of the three priority names gives that priority, and any priority other than NORMAL is given only by its own name in some letter case |
| Bundles.ParsePriorityNames | backend/dtn_bundle_manager.py:72-76 | Each priority's own name parses back to that priority |
| QueueOrder.Rank | backend/dtn_bundle_manager.py:157-158 | `priority_order.get(name, 99)`: exactly the three priority names rank at most 2, EXPEDITED alone ranks 0, and every other name ranks 99 |
| QueueOrder.SortByPriority | backend/dtn_bundle_manager.py:158 | The sort by rank, built as the records of rank 0, 1, 2 and 99 one after the other; it has as many records as its input |
| QueueOrder.WithRank | backend/dtn_bundle_manager.py:157-158 | Selecting the records of one rank yields only records of that rank, never more than there were |
| QueueOrder.BucketsPartition | backend/dtn_bundle_manager.py:157-158 | Every record falls in exactly one of the rank buckets 0, 1, 2 and 99, as often as it occurs |
| QueueOrder.SortIsPermutation | backend/dtn_bundle_manager.py:158 | The sorted view is a permutation of the unsorted records |
| QueueOrder.SortIsOrdered | backend/dtn_bundle_manager.py:157-158 | The sorted view lists records in non-decreasing rank: EXPEDITED, then NORMAL, then BULK, then unknown names |
| QueueOrder.SortIsStable | backend/dtn_bundle_manager.py:158 | The sort is stable: the records of any one rank keep their relative order |
| QueueOrder.RecordRankIsKnown | backend/dtn_bundle_manager.py:157 | A record's priority name always has a rank below the fallback 99; rank 0 is exactly EXPEDITED and rank 2 exactly BULK |
| Seqs.RemoveFirst | backend/dtn_bundle_manager.py:119-120 | Removing an absent id leaves the list alone; removing a present id shortens it by one |
| Seqs.RemoveFirstAt | backend/dtn_bundle_manager.py:119-120 | `list.remove` removes the first occurrence of the id: the elements before and after it keep their order |
| Seqs.RemoveFirstCounts | backend/dtn_bundle_manager.py:120 | `list.remove` drops exactly one occurrence of the id and keeps the count of every other element |
| Seqs.RemoveFirstNoDup | backend/dtn_bundle_manager.py:132-133 | In a list without repetitions, removing an id leaves no occurrence of it, keeps every other element and adds none |
| Seqs.RemoveFirstIsWithout | backend/dtn_bundle_manager.py:202-204 | In a list without repetitions, removing the first occurrence of an id removes every occurrence |
| Custody.NewBundle | backend/dtn_bundle_manager.py:78-88 | The bundle `create_bundle` builds (QUEUED, the source as custodian and only hop, no delivery or forwarding) already meets the per-bundle invariant, and with a non-negative TTL it is not expired at creation |
| Custody.CreatePreservesInv | backend/dtn_bundle_manager.py:78-91 | Storing a new QUEUED bundle with custodian and only hop its source, and appending its id to the source's queue, keeps the invariant |
| Custody.Deliver | backend/dtn_bundle_manager.py:112-123 | The delivery branch: the bundle is DELIVERED at `now` with the target appended to its hops, and the first occurrence of its id leaves the sender's queue; no bundle or queue is added or removed |
| Custody.Forward | backend/dtn_bundle_manager.py:124-140 | The forwarding branch: the target becomes custodian and `forwarded_to`, is appended to the hops, the bundle ends QUEUED, and its id moves from the sender's queue to the end of the target's; no bundle or queue is added or removed |
| Custody.Transmit | backend/dtn_bundle_manager.py:96-140 | The transmission fails exactly for an unknown id or a station already among the hops, and then changes nothing. On success the hops grow by exactly the target station. No other bundle changes and no key is added or removed |
| Custody.TransmitKeepsHopsDistinct | backend/dtn_bundle_manager.py:103-106 | The loop check keeps a repetition-free hop list free of repetitions |
| Custody.TransmitDelivers | backend/dtn_bundle_manager.py:112-123 | Delivery to the ISS or the destination succeeds, sets DELIVERED and the delivery time, keeps the custodian, removes the first occurrence of the id from the sender's queue so that the sender's queue no longer holds it, and adds it to no queue |
| Custody.TransmitForwards | backend/dtn_bundle_manager.py:124-140 | Forwarding succeeds, makes the target the custodian and `forwarded_to`, ends QUEUED, removes the id from the sender's queue and appends it to the target's queue. Every other queue is unchanged, and afterwards the id is held by exactly the target's queue and those other queues, apart from the sender's, that held it before |
| Custody.ForwardMoves | backend/dtn_bundle_manager.py:131-134 | The queue part of forwarding: the id leaves the sender's queue, is appended to the target's, and no other queue changes |
| Custody.TransmitPreservesInv | backend/dtn_bundle_manager.py:108-137 | Any transmission keeps the invariant, so the TRANSMITTING and FORWARDED statuses never outlive the call |
| Custody.LiveIds | backend/dtn_bundle_manager.py:147-151 | Every id kept for the view names a stored, unexpired bundle |
| Custody.LiveIdsIsSubseq | backend/dtn_bundle_manager.py:147-151 | The ids kept for the view appear in the order they have in the queue (a subsequence of it), so the stable sort keeps queue order within one priority |
| Custody.LiveIdsElems | backend/dtn_bundle_manager.py:147-151 | The ids kept for the view are exactly the queued ids that name a stored, unexpired bundle |
| Custody.LiveRecordsSnoc | backend/dtn_bundle_manager.py:147-151 | Reading one more queue entry appends its record exactly when the entry is live |
| Custody.Sweep | backend/dtn_bundle_manager.py:152-154 | Marking expired bundles removes no bundle and adds none |
| Custody.SweepOnlyMarksExpired | backend/dtn_bundle_manager.py:148-154 | Reading a queue changes a bundle only if it is read and expired, and then only its status, to EXPIRED. It stays in the dictionary |
| Custody.SweepPreservesInv | backend/dtn_bundle_manager.py:152-154 | Marking expired bundles keeps the invariant |
| Custody.StationQueue | backend/dtn_bundle_manager.py:142-160 | `get_station_queue` as the caller sees it: the records of the live ids sorted by priority; an unknown station gives an empty list, and a view is never longer than its queue |
| Custody.StationQueueSpec | backend/dtn_bundle_manager.py:142-160 | A known station's view is, up to order, the records of exactly its queued ids that are stored and unexpired, each once. It is sorted EXPEDITED, NORMAL, BULK and keeps queue order within one priority |
| Custody.StationQueueAfterSweep | backend/dtn_bundle_manager.py:162-167 | Reading a queue does not change what a later read of any queue returns |
| Custody.AllQueues | backend/dtn_bundle_manager.py:162-167 | `get_all_queues` returns exactly one view per configured station |
| Custody.Batch | backend/dtn_bundle_manager.py:183 | `queue[:3]` is a prefix of the queue, of length three when the queue has at least three ids, and the whole queue otherwise |
| Custody.DeliverBatch | backend/dtn_bundle_manager.py:183-185 | The delivery attempts of a contact add and remove no bundle and no queue |
| Custody.AcceptedIsTransmitOk | backend/dtn_bundle_manager.py:183-184 | An id of the batch is in the closed form's accepted set exactly when `transmit_bundle` to the ISS succeeds for it |
| Custody.DeliverBatchClosedForm | backend/dtn_bundle_manager.py:182-185 | For a queue without repetitions, the attempts one after another equal delivering all accepted ids at once and filtering them out of the station's queue |
| Custody.Contact | backend/dtn_bundle_manager.py:169-194 | `process_contact`: delivery attempts for `queue[:3]` under the ISS, else a transmission of `queue[0]` to a given next station; no bundle or queue is added or removed, and an unknown station or an empty queue changes nothing |
| Custody.ContactVisible | backend/dtn_bundle_manager.py:180-185 | With the ISS overhead, only the first three ids of the queue as it was on entry are attempted. Each not yet at the ISS becomes DELIVERED and leaves the queue. Every bundle outside the batch and every other station's queue is unchanged |
| Custody.ContactNotVisible | backend/dtn_bundle_manager.py:175-194 | Without the ISS overhead, an unknown station, an empty queue or no next station changes nothing. Otherwise only the head of the queue, in insertion order, is transmitted to the next station, and no other bundle changes |
| Custody.ContactPreservesInv | backend/dtn_bundle_manager.py:169-194 | Every contact keeps the invariant |
| Custody.ExpireAll | backend/dtn_bundle_manager.py:198-204 | Expiring a set of bundles removes no bundle and no queue |
| Custody.ExpireOne | backend/dtn_bundle_manager.py:199-204 | Expiring one bundle removes no bundle and no queue |
| Custody.ExpireOneMore | backend/dtn_bundle_manager.py:198-204 | When no queue repeats an id, expiring bundles one at a time equals expiring them all at once, so the order of the sweep does not matter |
| Custody.DropStep | backend/dtn_bundle_manager.py:202-204 | Dropping one more id from a filtered queue without repetitions is filtering by one more id |
| Custody.Cleanup | backend/dtn_bundle_manager.py:196-205 | `cleanup_expired`: the bundles past their TTL and not DELIVERED are expired and dropped from the queues; no bundle or queue is added or removed, and a bundle is DELIVERED afterwards exactly when it was before |
| Custody.CleanupSpec | backend/dtn_bundle_manager.py:196-205 | Every bundle past its TTL and not DELIVERED becomes EXPIRED and leaves every queue. DELIVERED and unexpired bundles are untouched, no bundle is deleted, and every other queued id stays, each queue keeping its order (a subsequence of the old queue) |
| Custody.CleanupPreservesInv | backend/dtn_bundle_manager.py:196-205 | The sweep keeps the invariant |
| Custody.CleanupIdempotent | backend/dtn_bundle_manager.py:196-205 | A second sweep at the same time changes nothing |
| Manager.StationNames | backend/dtn_bundle_manager.py:61 | The station table holds exactly the configured ids |
| Manager.StationNamesLastWins | backend/dtn_bundle_manager.py:61 | A station id listed more than once keeps the name of its last entry |
| Manager.AllQueuesStep | backend/dtn_bundle_manager.py:164-167 | A station's view read after other reads is the view of the initial state, so the result for all stations does not depend on their order |
| Manager.QueuedInAdd | backend/dtn_bundle_manager.py:164-167 | The ids read for a set of stations plus one more station are those read for the set plus that station's queue |
| Manager.BundleManager.constructor | backend/dtn_bundle_manager.py:60-63 | The station table is built from the list, there are no bundles, and every configured station has an empty queue |
| Manager.BundleManager.CreateBundle | backend/dtn_bundle_manager.py:67-94 | Returns and stores exactly `NewBundle` of the arguments (the priority parsed step by step as the source does), appends its id to the source's queue, changes nothing else, and keeps the invariant |
| Manager.BundleManager.TransmitBundle | backend/dtn_bundle_manager.py:96-140 | The returned flag and the new state are those of `Transmit`, and the invariant is kept |
| Manager.BundleManager.DeliverStep | backend/dtn_bundle_manager.py:108-123 | The field-by-field updates of the delivery branch produce `Deliver` |
| Manager.BundleManager.ForwardStep | backend/dtn_bundle_manager.py:124-140 | The field-by-field updates of the forwarding branch, through FORWARDED back to QUEUED, produce `Forward` |
| Manager.BundleManager.GetStationQueue | backend/dtn_bundle_manager.py:142-160 | Returns the station's view of the initial state, leaves the queues alone, marks exactly the expired bundles of that queue EXPIRED, and keeps the invariant. An unknown station gives an empty list and changes nothing |
| Manager.BundleManager.ReadStation | backend/dtn_bundle_manager.py:144-158 | Reading one station's queue and sorting it gives the station's view of the initial state and marks the expired bundles read |
| Manager.BundleManager.ReadQueue | backend/dtn_bundle_manager.py:147-154 | The loop over a queue collects the records of the live ids in queue order and marks each expired stored bundle EXPIRED |
| Manager.BundleManager.GetAllQueues | backend/dtn_bundle_manager.py:162-167 | Returns the view of every configured station of the initial state, marks the expired bundles of all queues, and keeps the invariant |
| Manager.BundleManager.ReadAll | backend/dtn_bundle_manager.py:164-167 | The comprehension over the stations, in any order, yields the views of the initial state |
| Manager.BundleManager.NextView | backend/dtn_bundle_manager.py:165 | Reading one more station extends the result by that station's view of the initial state |
| Manager.BundleManager.ProcessContact | backend/dtn_bundle_manager.py:169-194 | The new state is that of `Contact`, an unknown station or empty queue changes nothing, and the invariant is kept |
| Manager.BundleManager.DeliverEach | backend/dtn_bundle_manager.py:182-185 | The loop of delivery attempts to the ISS produces `DeliverBatch` |
| Manager.BundleManager.ExpireBundle | backend/dtn_bundle_manager.py:199-204 | One bundle becomes EXPIRED and the first occurrence of its id leaves every queue; nothing else changes |
| Manager.BundleManager.DropFromQueues | backend/dtn_bundle_manager.py:202-204 | Every queue loses the first occurrence of the id; the bundles are unchanged |
| Manager.BundleManager.CleanupExpired | backend/dtn_bundle_manager.py:196-205 | The new state is that of `Cleanup` and the invariant is kept |
| Manager.BundleManager.ExpireEach | backend/dtn_bundle_manager.py:198-204 | Visiting the bundles in any order produces `Cleanup` |

## Left out

- `print` logging and the local `transmitted` list of `process_contact`, which only feeds a log line, are not modelled.
- `datetime.now` is replaced by a `now` parameter. Each operation uses one `now`, while the source reads the clock again for each bundle and for `age_seconds`.
- `uuid.uuid4()` is replaced by a caller-supplied `id` that must not be stored yet.
- Bundles.IsExpired: ages are whole seconds, not `timedelta` values with microseconds.
- Bundles.IsExpired: `ttlHours` is an unbounded integer, whereas `timedelta(hours=ttl_hours)` at line 37 raises `OverflowError` once the TTL is beyond about ±2.4e10 hours (±999999999 days). `create_bundle` accepts such a TTL, because it never builds the `timedelta`. After that, every `is_expired` call on that bundle raises. As a result `get_station_queue` for a station queuing it raises (after marking the expired entries before it, line 154), and `get_all_queues` and `cleanup_expired` raise for as long as the bundle exists. In the model such a bundle is simply never expired, and every read and sweep succeeds.
- Bundles.ToRecord: `created_at` and `delivered_at` stay integer seconds instead of ISO 8601 strings, and `age_seconds` is an integer, not a float.
- Bundles.Upper: models `str.upper` for the ASCII letters only.
- Manager.BundleManager.CreateBundle: returns the bundle as a value. Later changes to the stored bundle are not visible through it, whereas the source returns the stored object itself.
- Bundles.ToRecord: copies the hop list, whereas `to_dict` returns the bundle's own `hops` list, so a view the source has returned shows later appends to that list (lines 116 and 129); the model does not capture that aliasing.
- Dictionary iteration order in `get_all_queues` and `cleanup_expired` is not modelled. The loops visit keys in an arbitrary order, and the results are proved not to depend on it.
- A KeyError is not modelled as an outcome. The preconditions exclude it instead, so the model does not capture the state the source leaves behind when it raises part-way: `create_bundle` has already stored the bundle (line 90) when the queue lookup of line 91 fails, leaving it in no queue, and a forward to an unconfigured station has already run lines 126-133 (FORWARDED, new custodian and hop, removed from the sender's queue) when line 134 fails, leaving it in no queue. An unknown `from_station` fails later than its rejections:
  - a delivery has already set DELIVERED, `delivered_at` and the new hop (lines 114-116) when line 119 fails;
  - a forward has already set FORWARDED, the custodian, `forwarded_to` and the new hop (lines 126-129) when line 132 fails.

  The excluded cases are:
  - `create_bundle` needs a configured source station;
  - `transmit_bundle` needs a known sending station once it gets past its two rejections, and a known target when it forwards (`TransmitKnown`);
  - `process_contact` needs the same for the head of the queue (`ContactKnown`).

=== FILE: bundle.dfy ===
/** The DTN bundle record (`DTNBundle` in backend/dtn_bundle_manager.py), its
    two enumerations, the TTL test, the dictionary view `to_dict` and the
    case-insensitive parsing of a priority name. Times are integer seconds;
    the caller supplies the current time `now`. */
module Bundles {

  datatype Option<T> = None | Some(value: T)

  datatype Priority = Expedited | Normal | Bulk

  datatype Status = Queued | Transmitting | Delivered | Forwarded | Expired

  /** The enumeration's string value (`BundlePriority.value`). */
  function PriorityName(p: Priority): string
  {
    match p
    case Expedited => "EXPEDITED"
    case Normal => "NORMAL"
    case Bulk => "BULK"
  }

  /** The enumeration's string value (`BundleStatus.value`). */
  function StatusName(s: Status): string
  {
    match s
    case Queued => "QUEUED"
    case Transmitting => "TRANSMITTING"
    case Delivered => "DELIVERED"
    case Forwarded => "FORWARDED"
    case Expired => "EXPIRED"
  }

  datatype Bundle = Bundle(
    id: string,
    source: string,
    destination: string,
    payload: string,
    priority: Priority,
    createdAt: int,
    ttlHours: int,
    status: Status,
    custodian: string,
    forwardedTo: Option<string>,
    deliveredAt: Option<int>,
    hops: seq<string>)

  const SecondsPerHour := 3600

  /** A bundle is expired once strictly more than its TTL has passed since
      its creation; so one with a non-negative TTL is never expired at or
      before its creation time, nor exactly when its TTL runs out. */
  predicate IsExpired(b: Bundle, now: int)
    ensures b.ttlHours >= 0 && now <= b.createdAt ==> !IsExpired(b, now)
    ensures now == b.createdAt + b.ttlHours * SecondsPerHour ==> !IsExpired(b, now)
  {
    now - b.createdAt > b.ttlHours * SecondsPerHour
  }

  /** An expired bundle stays expired as time moves on. */
  lemma ExpiryIsMonotone(b: Bundle, now: int, later: int)
    requires IsExpired(b, now) && now <= later
    ensures IsExpired(b, later)
  {
  }

  /** The bundle as the API returns it (`to_dict`): enumerations as their
      names, a short id, and the age recomputed against `now`. */
  datatype BundleRecord = BundleRecord(
    bundleId: string,
    bundleIdShort: string,
    source: string,
    destination: string,
    payload: string,
    priority: string,
    status: string,
    createdAt: int,
    ttlHours: int,
    custodian: string,
    forwardedTo: Option<string>,
    deliveredAt: Option<int>,
    hops: seq<string>,
    ageSeconds: int)

  /** Python's `bundle_id[:8]`: at most the first eight characters. */
  function ShortId(id: string): (r: string)
    ensures |r| == if |id| < 8 then |id| else 8
    ensures r <= id
  {
    if |id| <= 8 then id else id[..8]
  }

  function ToRecord(b: Bundle, now: int): (r: BundleRecord)
    ensures r.bundleIdShort <= r.bundleId == b.id
    ensures r.bundleIdShort == ShortId(b.id)
    ensures r.ageSeconds == now - b.createdAt
    ensures r.ageSeconds >= 0 <==> now >= b.createdAt
    ensures r.priority in {"EXPEDITED", "NORMAL", "BULK"}
  {
    BundleRecord(
      b.id, ShortId(b.id), b.source, b.destination, b.payload,
      PriorityName(b.priority), StatusName(b.status), b.createdAt, b.ttlHours,
      b.custodian, b.forwardedTo, b.deliveredAt, b.hops, now - b.createdAt)
  }

  /** Python's `str.upper` on one character, for the ASCII letters. */
  function UpperChar(c: char): char
  {
    if 'a' <= c <= 'z' then (c as int - 'a' as int + 'A' as int) as char else c
  }

  function Upper(s: string): (r: string)
    ensures |r| == |s|
  {
    seq(|s|, i requires 0 <= i < |s| => UpperChar(s[i]))
  }

  /** The priority parsed from the request (`create_bundle`): EXPEDITED or
      BULK in any letter case, anything else NORMAL. A name that upper-cases
      to one of the three names parses to the priority of that name. */
  function ParsePriority(name: string): (r: Priority)
    ensures Upper(name) in {"EXPEDITED", "NORMAL", "BULK"} ==> PriorityName(r) == Upper(name)
    ensures r == Normal || PriorityName(r) == Upper(name)
  {
    if Upper(name) == "EXPEDITED" then Expedited
    else if Upper(name) == "BULK" then Bulk
    else Normal
  }

  /** `s` spells the upper-case `word` with each letter in either case. */
  predicate SpellsIgnoringCase(s: string, word: string)
  {
    |s| == |word| &&
    forall i | 0 <= i < |s| :: s[i] == word[i] || s[i] as int == word[i] as int + 32
  }

  predicate IsUpperWord(word: string)
  {
    forall i | 0 <= i < |word| :: 'A' <= word[i] <= 'Z'
  }

  lemma UpperMatchesWord(s: string, word: string)
    requires IsUpperWord(word)
    ensures Upper(s) == word <==> SpellsIgnoringCase(s, word)
  {
    if SpellsIgnoringCase(s, word) {
      assert forall i | 0 <= i < |s| :: Upper(s)[i] == word[i];
    }
    if Upper(s) == word {
      forall i | 0 <= i < |s|
        ensures s[i] == word[i] || s[i] as int == word[i] as int + 32
      {
        assert UpperChar(s[i]) == word[i];
      }
    }
  }

  /** Priority parsing is case-insensitive in both directions. */
  lemma ParsePriorityCases(name: string)
    ensures ParsePriority(name) == Expedited <==> SpellsIgnoringCase(name, "EXPEDITED")
    ensures ParsePriority(name) == Bulk <==> SpellsIgnoringCase(name, "BULK")
    ensures ParsePriority(name) == Normal <==>
      !SpellsIgnoringCase(name, "EXPEDITED") && !SpellsIgnoringCase(name, "BULK")
  {
    UpperMatchesWord(name, "EXPEDITED");
    UpperMatchesWord(name, "BULK");
  }

  /** Every priority's own name parses back to it. */
  lemma ParsePriorityNames(p: Priority)
    ensures ParsePriority(PriorityName(p)) == p
  {
    ParsePriorityCases(PriorityName(p));
  }
}

=== FILE: custody.dfy ===
/** The custody bookkeeping of `DTNBundleManager` as functions on its state:
    the bundles keyed by id and the per-station queues of bundle ids. The
    class in module Manager changes that state in place and is proved to
    follow these functions; the lemmas here state what the operations
    promise. */
module Custody {
  import opened Seqs
  import opened Bundles
  import opened QueueOrder

  /** The station id that always counts as final delivery. */
  const Iss := "ISS"

  datatype Store = Store(bundles: map<string, Bundle>, queues: map<string, seq<string>>)

  /** The outcome of `transmit_bundle`: the returned flag and the new state. */
  datatype Attempt = Attempt(ok: bool, store: Store)

  // ---------------------------------------------------------------------
  // The state invariant

  /** A stored bundle: filed under its own id, hops without repetition, the
      custodian among the hops, never left in a transient status, and a
      delivery time once delivered. */
  predicate BundleOk(key: string, b: Bundle)
  {
    && b.id == key
    && NoDup(b.hops)
    && b.custodian in b.hops
    && b.status != Transmitting && b.status != Forwarded
    && (b.status == Delivered ==> b.deliveredAt.Some?)
  }

  /** A station queue: no id twice, and every id names a stored bundle that
      has passed through this station. */
  predicate QueueOk(station: string, q: seq<string>, bundles: map<string, Bundle>)
  {
    && NoDup(q)
    && forall i | 0 <= i < |q| :: q[i] in bundles && station in bundles[q[i]].hops
  }

  /** The invariant every manager operation keeps; `stations` are the
      configured station ids. */
  predicate Inv(stations: set<string>, st: Store)
  {
    && st.queues.Keys == stations
    && (forall x | x in st.bundles :: BundleOk(x, st.bundles[x]))
    && (forall s | s in st.queues :: QueueOk(s, st.queues[s], st.bundles))
  }

  // ---------------------------------------------------------------------
  // create_bundle

  /** The bundle `create_bundle` builds at `source` at time `now`: it
      already meets the invariant and, with a non-negative TTL, is not
      expired at creation. */
  function NewBundle(id: string, source: string, destination: string, payload: string,
                     priority: string, ttlHours: int, now: int): (r: Bundle)
    ensures BundleOk(id, r)
    ensures ttlHours >= 0 ==> !IsExpired(r, now)
  {
    Bundle(id, source, destination, payload, ParsePriority(priority), now, ttlHours,
           Queued, source, None, None, [source])
  }

  lemma CreatePreservesInv(stations: set<string>, st: Store, b: Bundle)
    requires Inv(stations, st)
    requires b.id !in st.bundles && b.source in st.queues
    requires b.status == Queued && b.custodian == b.source && b.hops == [b.source]
    ensures Inv(stations, Store(st.bundles[b.id := b],
                                st.queues[b.source := st.queues[b.source] + [b.id]]))
  {
    var bs := st.bundles[b.id := b];
    var qs := st.queues[b.source := st.queues[b.source] + [b.id]];
    assert BundleOk(b.id, b);
    forall s | s in qs
      ensures QueueOk(s, qs[s], bs)
    {
      var q := st.queues[s];
      assert QueueOk(s, q, st.bundles);
      assert b.id !in q;
      if s == b.source {
        assert qs[s] == q + [b.id];
      }
    }
  }

  // ---------------------------------------------------------------------
  // transmit_bundle

  /** What `transmit_bundle` needs so that it raises no KeyError: once it
      gets past its two rejections it indexes the queue of `from`, and on
      the forwarding branch the queue of `to`. */
  predicate TransmitKnown(st: Store, id: string, from: string, to: string)
  {
    id in st.bundles && to !in st.bundles[id].hops ==>
      && from in st.queues
      && (to == Iss || to == st.bundles[id].destination || to in st.queues)
  }

  /** The bundle after delivery to `to`. */
  function DeliverTo(b: Bundle, to: string, now: int): Bundle
  {
    b.(status := Delivered, deliveredAt := Some(now), hops := b.hops + [to])
  }

  /** The bundle after custody passed to `to` and it was queued there. */
  function ForwardTo(b: Bundle, to: string): Bundle
  {
    b.(status := Queued, custodian := to, forwardedTo := Some(to), hops := b.hops + [to])
  }

  /** The delivery branch: the bundle is delivered and its id leaves the
      queue of `from`. */
  function Deliver(st: Store, id: string, from: string, to: string, now: int): (r: Store)
    requires id in st.bundles && from in st.queues
    ensures r.bundles.Keys == st.bundles.Keys && r.queues.Keys == st.queues.Keys
  {
    Store(st.bundles[id := DeliverTo(st.bundles[id], to, now)],
          st.queues[from := RemoveFirst(st.queues[from], id)])
  }

  /** The forwarding branch: custody passes to `to` and the id moves from
      the queue of `from` to the end of the queue of `to`. */
  function Forward(st: Store, id: string, from: string, to: string): (r: Store)
    requires id in st.bundles && from in st.queues && to in st.queues
    ensures r.bundles.Keys == st.bundles.Keys && r.queues.Keys == st.queues.Keys
  {
    var qs := st.queues[from := RemoveFirst(st.queues[from], id)];
    Store(st.bundles[id := ForwardTo(st.bundles[id], to)], qs[to := qs[to] + [id]])
  }

  /** `transmit_bundle(id, from, to)`: rejected for an unknown id or a
      station already on the bundle's path; otherwise delivered (to the ISS
      or the destination) or forwarded. */
  function Transmit(st: Store, id: string, from: string, to: string, now: int): (r: Attempt)
    requires TransmitKnown(st, id, from, to)
    ensures !r.ok <==> id !in st.bundles || to in st.bundles[id].hops
    ensures !r.ok ==> r.store == st
    ensures r.store.bundles.Keys == st.bundles.Keys && r.store.queues.Keys == st.queues.Keys
    ensures r.ok ==> id in st.bundles && r.store.bundles[id].hops == st.bundles[id].hops + [to]
    ensures forall x | x in st.bundles && x != id :: r.store.bundles[x] == st.bundles[x]
  {
    if id !in st.bundles || to in st.bundles[id].hops then Attempt(false, st)
    else if to == Iss || to == st.bundles[id].destination then Attempt(true, Deliver(st, id, from, to, now))
    else Attempt(true, Forward(st, id, from, to))
  }

  /** The loop check keeps the hop list free of repetitions. */
  lemma TransmitKeepsHopsDistinct(st: Store, id: string, from: string, to: string, now: int)
    requires TransmitKnown(st, id, from, to)
    requires id in st.bundles && NoDup(st.bundles[id].hops)
    ensures NoDup(Transmit(st, id, from, to, now).store.bundles[id].hops)
  {
    var r := Transmit(st, id, from, to, now);
    if r.ok {
      var h := st.bundles[id].hops;
      assert r.store.bundles[id].hops == h + [to];
      assert to !in h;
    }
  }

  /** Delivery: the bundle becomes DELIVERED at `now` with the same
      custodian, leaves the queue of `from`, and no queue gains it. */
  lemma TransmitDelivers(stations: set<string>, st: Store, id: string, from: string, to: string, now: int)
    requires Inv(stations, st) && TransmitKnown(st, id, from, to)
    requires id in st.bundles && to !in st.bundles[id].hops
    requires to == Iss || to == st.bundles[id].destination
    ensures var r := Transmit(st, id, from, to, now);
      && r.ok
      && r.store.bundles[id] == DeliverTo(st.bundles[id], to, now)
      && r.store.bundles[id].status == Delivered
      && r.store.bundles[id].deliveredAt == Some(now)
      && r.store.bundles[id].custodian == st.bundles[id].custodian
      && r.store.queues == st.queues[from := RemoveFirst(st.queues[from], id)]
      && id !in r.store.queues[from]
      && (forall t | t in r.store.queues :: id in r.store.queues[t] ==> id in st.queues[t])
  {
    assert QueueOk(from, st.queues[from], st.bundles);
    RemoveFirstNoDup(st.queues[from], id);
  }

  /** Forwarding: custody and `forwarded_to` pass to `to`, the bundle is
      QUEUED again, and its id moves from the queue of `from` to the end of
      the queue of `to`; every other queue is unchanged. */
  lemma TransmitForwards(stations: set<string>, st: Store, id: string, from: string, to: string, now: int)
    requires Inv(stations, st) && TransmitKnown(st, id, from, to)
    requires id in st.bundles && to !in st.bundles[id].hops
    requires to != Iss && to != st.bundles[id].destination
    ensures var r := Transmit(st, id, from, to, now);
      && r.ok
      && r.store.bundles[id] == ForwardTo(st.bundles[id], to)
      && r.store.bundles[id].status == Queued
      && r.store.bundles[id].custodian == to
      && r.store.bundles[id].forwardedTo == Some(to)
      && (from != to ==> r.store.queues[from] == RemoveFirst(st.queues[from], id))
      && (from != to ==> r.store.queues[to] == st.queues[to] + [id])
      && (forall t | t in st.queues && t != from && t != to :: r.store.queues[t] == st.queues[t])
      && (forall t | t in st.queues :: id in r.store.queues[t] <==> t == to || (t != from && id in st.queues[t]))
  {
    assert QueueOk(from, st.queues[from], st.bundles);
    assert QueueOk(to, st.queues[to], st.bundles);
    assert id !in st.queues[to];
    ForwardMoves(st, id, from, to);
  }

  lemma ForwardMoves(st: Store, id: string, from: string, to: string)
    requires id in st.bundles && from in st.queues && to in st.queues
    requires NoDup(st.queues[from]) && id !in st.queues[to]
    ensures var r := Forward(st, id, from, to);
      && (from != to ==> r.queues[from] == RemoveFirst(st.queues[from], id))
      && (from != to ==> r.queues[to] == st.queues[to] + [id])
      && (forall t | t in st.queues && t != from && t != to :: r.queues[t] == st.queues[t])
      && (forall t | t in st.queues :: id in r.queues[t] <==> t == to || (t != from && id in st.queues[t]))
  {
    var r := Forward(st, id, from, to);
    RemoveFirstNoDup(st.queues[from], id);
    forall t | t in st.queues
      ensures id in r.queues[t] <==> t == to || (t != from && id in st.queues[t])
    {
      if t == to {
        assert r.queues[t][|r.queues[t]| - 1] == id;
      }
    }
  }

  lemma TransmitPreservesInv(stations: set<string>, st: Store, id: string, from: string, to: string, now: int)
    requires Inv(stations, st) && TransmitKnown(st, id, from, to)
    ensures Inv(stations, Transmit(st, id, from, to, now).store)
  {
    if id in st.bundles && to !in st.bundles[id].hops {
      if to == Iss || to == st.bundles[id].destination {
        DeliverPreservesInv(stations, st, id, from, to, now);
      } else {
        ForwardPreservesInv(stations, st, id, from, to);
      }
    }
  }

  lemma DeliverPreservesInv(stations: set<string>, st: Store, id: string, from: string, to: string, now: int)
    requires Inv(stations, st)
    requires id in st.bundles && from in st.queues && to !in st.bundles[id].hops
    ensures Inv(stations, Deliver(st, id, from, to, now))
  {
    var r := Deliver(st, id, from, to, now);
    var b := st.bundles[id];
    NoDupAppend(b.hops, to);
    assert BundleOk(id, r.bundles[id]);
    forall s | s in r.queues
      ensures QueueOk(s, r.queues[s], r.bundles)
    {
      var q := st.queues[s];
      assert QueueOk(s, q, st.bundles);
      QueueOkAfterHopsGrow(s, q, st.bundles, id, r.bundles[id]);
      if s == from {
        RemoveFirstNoDup(q, id);
        QueueOkShrink(s, q, RemoveFirst(q, id), r.bundles);
      }
    }
  }

  lemma ForwardPreservesInv(stations: set<string>, st: Store, id: string, from: string, to: string)
    requires Inv(stations, st)
    requires id in st.bundles && from in st.queues && to in st.queues && to !in st.bundles[id].hops
    ensures Inv(stations, Forward(st, id, from, to))
  {
    var r := Forward(st, id, from, to);
    var b := st.bundles[id];
    NoDupAppend(b.hops, to);
    assert BundleOk(id, r.bundles[id]);
    var q0 := st.queues[from];
    var qs := st.queues[from := RemoveFirst(q0, id)];
    forall s | s in qs
      ensures QueueOk(s, qs[s], r.bundles)
    {
      var q := st.queues[s];
      assert QueueOk(s, q, st.bundles);
      QueueOkAfterHopsGrow(s, q, st.bundles, id, r.bundles[id]);
      if s == from {
        RemoveFirstNoDup(q, id);
        QueueOkShrink(s, q, RemoveFirst(q, id), r.bundles);
      }
    }
    assert id !in qs[to] by {
      assert QueueOk(to, st.queues[to], st.bundles);
      if to == from {
        RemoveFirstNoDup(q0, id);
      } else {
        assert id !in st.queues[to];
      }
    }
    QueueOkAppend(to, qs[to], r.bundles, id);
    assert r.queues == qs[to := qs[to] + [id]];
  }

  lemma QueueOkAfterHopsGrow(s: string, q: seq<string>, bundles: map<string, Bundle>, id: string, b: Bundle)
    requires QueueOk(s, q, bundles) && id in bundles
    requires forall t | t in bundles[id].hops :: t in b.hops
    ensures QueueOk(s, q, bundles[id := b])
  {
  }

  lemma QueueOkShrink(s: string, q: seq<string>, q': seq<string>, bundles: map<string, Bundle>)
    requires QueueOk(s, q, bundles) && NoDup(q')
    requires forall i | 0 <= i < |q'| :: q'[i] in q
    ensures QueueOk(s, q', bundles)
  {
  }

  lemma QueueOkAppend(s: string, q: seq<string>, bundles: map<string, Bundle>, id: string)
    requires QueueOk(s, q, bundles) && id in bundles && s in bundles[id].hops && id !in q
    ensures QueueOk(s, q + [id], bundles)
  {
    NoDupAppend(q, id);
  }

  // ---------------------------------------------------------------------
  // get_station_queue and get_all_queues

  /** The ids of `q` that name a stored, unexpired bundle, in queue order. */
  function LiveIds(q: seq<string>, bundles: map<string, Bundle>, now: int): (r: seq<string>)
    ensures |r| <= |q|
    ensures forall i | 0 <= i < |r| :: r[i] in bundles && !IsExpired(bundles[r[i]], now)
  {
    if q == [] then []
    else
      var x := q[|q| - 1];
      LiveIds(q[..|q| - 1], bundles, now) +
      (if x in bundles && !IsExpired(bundles[x], now) then [x] else [])
  }

  /** The live ids are exactly the ids of the queue that name a stored,
      unexpired bundle. */
  lemma {:induction false} LiveIdsElems(q: seq<string>, bundles: map<string, Bundle>, now: int)
    ensures forall x :: x in LiveIds(q, bundles, now) <==> x in q && x in bundles && !IsExpired(bundles[x], now)
    decreases |q|
  {
    if q != [] {
      var init := q[..|q| - 1];
      LiveIdsElems(init, bundles, now);
      assert q == init + [q[|q| - 1]];
    }
  }

  /** The live ids keep their queue order. */
  lemma {:induction false} LiveIdsIsSubseq(q: seq<string>, bundles: map<string, Bundle>, now: int)
    ensures IsSubseq(LiveIds(q, bundles, now), q)
    decreases |q|
  {
    if q != [] {
      var init := q[..|q| - 1];
      LiveIdsIsSubseq(init, bundles, now);
      var r := LiveIds(q, bundles, now);
      if r != LiveIds(init, bundles, now) {
        assert r[..|r| - 1] == LiveIds(init, bundles, now);
      }
    }
  }

  /** The records (`to_dict`) of the given stored bundles. */
  function Records(ids: seq<string>, bundles: map<string, Bundle>, now: int): (r: seq<BundleRecord>)
    requires forall i | 0 <= i < |ids| :: ids[i] in bundles
    ensures |r| == |ids|
  {
    seq(|ids|, i requires 0 <= i < |ids| => ToRecord(bundles[ids[i]], now))
  }

  /** The unsorted view of a queue: one record per live id. */
  function LiveRecords(q: seq<string>, bundles: map<string, Bundle>, now: int): seq<BundleRecord>
  {
    Records(LiveIds(q, bundles, now), bundles, now)
  }

  /** `get_station_queue(s)` as seen by the caller: empty for an unknown
      station, otherwise the live records sorted by priority. */
  function StationQueue(st: Store, s: string, now: int): (r: seq<BundleRecord>)
    ensures s !in st.queues ==> r == []
    ensures s in st.queues ==> |r| <= |st.queues[s]|
  {
    if s in st.queues then SortByPriority(LiveRecords(st.queues[s], st.bundles, now)) else []
  }

  /** The ids held in the queue of `s` (none for an unknown station). */
  function QueuedAt(queues: map<string, seq<string>>, s: string): set<string>
  {
    if s in queues then Elems(queues[s]) else {}
  }

  /** The ids held in the queue of any station of `ss`. */
  function QueuedIn(queues: map<string, seq<string>>, ss: set<string>): set<string>
  {
    set s, x | s in ss && s in queues && x in queues[s] :: x
  }

  /** The side effect of reading queues: every bundle among `ids` that has
      expired is marked EXPIRED, whatever its status. */
  function Sweep(bundles: map<string, Bundle>, ids: set<string>, now: int): (r: map<string, Bundle>)
    ensures r.Keys == bundles.Keys
  {
    map x | x in bundles :: if x in ids && IsExpired(bundles[x], now) then bundles[x].(status := Expired) else bundles[x]
  }

  /** Reading marks only expired bundles, and never removes one. */
  lemma SweepOnlyMarksExpired(bundles: map<string, Bundle>, ids: set<string>, now: int)
    ensures var r := Sweep(bundles, ids, now);
      && r.Keys == bundles.Keys
      && (forall x | x in bundles :: r[x] == bundles[x] || (x in ids && IsExpired(bundles[x], now) && r[x] == bundles[x].(status := Expired)))
      && (forall x | x in bundles && x in ids && IsExpired(bundles[x], now) :: r[x].status == Expired)
  {
  }

  lemma SweepTwice(bundles: map<string, Bundle>, a: set<string>, b: set<string>, now: int)
    ensures Sweep(Sweep(bundles, a, now), b, now) == Sweep(bundles, a + b, now)
  {
  }

  lemma SweepPreservesInv(stations: set<string>, st: Store, ids: set<string>, now: int)
    requires Inv(stations, st)
    ensures Inv(stations, Store(Sweep(st.bundles, ids, now), st.queues))
  {
    var bs := Sweep(st.bundles, ids, now);
    forall s | s in st.queues
      ensures QueueOk(s, st.queues[s], bs)
    {
      assert QueueOk(s, st.queues[s], st.bundles);
    }
  }

  /** Reading one more queue entry: the live records grow by that entry's
      record when it is live. */
  lemma LiveRecordsSnoc(q: seq<string>, x: string, bundles: map<string, Bundle>, now: int)
    ensures LiveRecords(q + [x], bundles, now) ==
      LiveRecords(q, bundles, now) +
      (if x in bundles && !IsExpired(bundles[x], now) then [ToRecord(bundles[x], now)] else [])
  {
    assert (q + [x])[..|q + [x]| - 1] == q;
    var l0 := LiveIds(q, bundles, now);
    var l1 := LiveIds(q + [x], bundles, now);
    assert l1 == l0 + (if x in bundles && !IsExpired(bundles[x], now) then [x] else []);
  }

  /** Sweeping one more id. */
  lemma SweepAdd(bundles: map<string, Bundle>, ids: set<string>, x: string, now: int)
    ensures Sweep(bundles, ids + {x}, now) ==
      if x in bundles && IsExpired(bundles[x], now)
      then Sweep(bundles, ids, now)[x := bundles[x].(status := Expired)]
      else Sweep(bundles, ids, now)
  {
  }

  /** Marking expired bundles does not change which ids are live. */
  lemma {:induction false} LiveIdsAfterSweep(q: seq<string>, bundles: map<string, Bundle>, ids: set<string>, now: int)
    ensures LiveIds(q, Sweep(bundles, ids, now), now) == LiveIds(q, bundles, now)
    decreases |q|
  {
    if q != [] {
      LiveIdsAfterSweep(q[..|q| - 1], bundles, ids, now);
    }
  }

  /** Hence reading one station's queue does not change what a later read
      of any station's queue returns. */
  lemma StationQueueAfterSweep(st: Store, ids: set<string>, s: string, now: int)
    ensures StationQueue(Store(Sweep(st.bundles, ids, now), st.queues), s, now) == StationQueue(st, s, now)
  {
    if s in st.queues {
      var q := st.queues[s];
      var bs := Sweep(st.bundles, ids, now);
      LiveIdsAfterSweep(q, st.bundles, ids, now);
      var live := LiveIds(q, st.bundles, now);
      assert LiveRecords(q, bs, now) == LiveRecords(q, st.bundles, now) by {
        forall i | 0 <= i < |live|
          ensures bs[live[i]] == st.bundles[live[i]]
        {
        }
      }
    }
  }

  /** `get_all_queues()` as seen by the caller: the view of each station of
      `ss`. */
  function AllQueues(st: Store, ss: set<string>, now: int): (r: map<string, seq<BundleRecord>>)
    ensures r.Keys == ss
  {
    map s | s in ss :: StationQueue(st, s, now)
  }

  /** The queue view holds exactly the live ids of the queue, each once
      when the queue has no duplicates, EXPEDITED before NORMAL before
      BULK, and in queue order within one priority. */
  lemma StationQueueSpec(stations: set<string>, st: Store, s: string, now: int)
    requires Inv(stations, st) && s in st.queues
    ensures var view := StationQueue(st, s, now);
      var live := LiveIds(st.queues[s], st.bundles, now);
      && multiset(view) == multiset(Records(live, st.bundles, now))
      && SortedByRank(view)
      && (forall k :: WithRank(view, k) == WithRank(Records(live, st.bundles, now), k))
      && (forall i | 0 <= i < |live| :: Records(live, st.bundles, now)[i].bundleId == live[i])
      && (forall x :: x in live <==> x in st.queues[s] && x in st.bundles && !IsExpired(st.bundles[x], now))
      && NoDup(live)
  {
    var q := st.queues[s];
    var rs := LiveRecords(q, st.bundles, now);
    SortIsPermutation(rs);
    SortIsOrdered(rs);
    forall k
      ensures WithRank(SortByPriority(rs), k) == WithRank(rs, k)
    {
      SortIsStable(rs, k);
    }
    assert QueueOk(s, q, st.bundles);
    LiveIdsNoDup(q, st.bundles, now);
    LiveIdsElems(q, st.bundles, now);
  }

  lemma {:induction false} LiveIdsNoDup(q: seq<string>, bundles: map<string, Bundle>, now: int)
    requires NoDup(q)
    ensures NoDup(LiveIds(q, bundles, now))
    decreases |q|
  {
    if q != [] {
      var init, x := q[..|q| - 1], q[|q| - 1];
      assert x !in init;
      LiveIdsNoDup(init, bundles, now);
      LiveIdsElems(init, bundles, now);
    }
  }

  // ---------------------------------------------------------------------
  // process_contact

  /** Python's `queue[:3]`: at most the first three ids. */
  function Batch(q: seq<string>): (r: seq<string>)
    ensures |r| <= 3 && r <= q
    ensures |q| >= 3 ==> |r| == 3
    ensures |q| < 3 ==> r == q
  {
    if |q| <= 3 then q else q[..3]
  }

  /** The attempts to deliver each of `ids`, in order, from station `s` to
      the ISS. */
  function DeliverBatch(st: Store, s: string, ids: seq<string>, now: int): (r: Store)
    requires s in st.queues
    ensures r.queues.Keys == st.queues.Keys && r.bundles.Keys == st.bundles.Keys
  {
    if ids == [] then st
    else
      var mid := DeliverBatch(st, s, ids[..|ids| - 1], now);
      Transmit(mid, ids[|ids| - 1], s, Iss, now).store
  }

  /** What `process_contact` needs so that it raises no KeyError: when it
      forwards the head of the queue, that transmission must be defined. */
  predicate ContactKnown(st: Store, s: string, visible: bool, next: Option<string>)
  {
    s in st.queues && st.queues[s] != [] && !visible && next.Some? && next.value != "" ==>
      TransmitKnown(st, st.queues[s][0], s, next.value)
  }

  /** `process_contact(s, visible, next)`: nothing for an unknown station
      or an empty queue; with the ISS overhead, delivery attempts for the
      first three ids of the queue; otherwise, given a next station, the
      head of the queue in insertion order is forwarded there. */
  function Contact(st: Store, s: string, visible: bool, next: Option<string>, now: int): (r: Store)
    requires ContactKnown(st, s, visible, next)
    ensures r.bundles.Keys == st.bundles.Keys && r.queues.Keys == st.queues.Keys
    ensures s !in st.queues || st.queues[s] == [] ==> r == st
  {
    var q := if s in st.queues then st.queues[s] else [];
    if q == [] then st
    else if visible then DeliverBatch(st, s, Batch(q), now)
    else if next.Some? && next.value != "" then Transmit(st, q[0], s, next.value, now).store
    else st
  }

  /** The ids among `ids` that a delivery attempt to the ISS accepts. */
  function Accepted(bundles: map<string, Bundle>, ids: seq<string>): set<string>
  {
    set x | x in ids && x in bundles && Iss !in bundles[x].hops
  }

  /** An id of the batch is accepted exactly when `transmit_bundle` to the
      ISS reports success for it. */
  lemma AcceptedIsTransmitOk(st: Store, s: string, ids: seq<string>, now: int)
    requires s in st.queues
    ensures forall x | x in ids :: x in Accepted(st.bundles, ids) <==> Transmit(st, x, s, Iss, now).ok
  {
  }

  /** The state after delivery attempts for the ids of `ids`, stated all at
      once: the accepted bundles are delivered and leave the queue of `s`,
      and nothing else changes. */
  function DeliveredAll(st: Store, s: string, ids: seq<string>, now: int): Store
    requires s in st.queues
  {
    var acc := Accepted(st.bundles, ids);
    Store(map x | x in st.bundles :: if x in acc then DeliverTo(st.bundles[x], Iss, now) else st.bundles[x],
          st.queues[s := Without(st.queues[s], acc)])
  }

  lemma {:induction false} DeliverBatchClosedForm(st: Store, s: string, ids: seq<string>, now: int)
    requires s in st.queues && NoDup(st.queues[s]) && NoDup(ids)
    ensures DeliverBatch(st, s, ids, now) == DeliveredAll(st, s, ids, now)
    decreases |ids|
  {
    if ids == [] {
      WithoutEmpty(st.queues[s]);
      assert Accepted(st.bundles, ids) == {};
      assert DeliveredAll(st, s, ids, now).bundles == st.bundles;
    } else {
      var init, x := ids[..|ids| - 1], ids[|ids| - 1];
      assert ids == init + [x];
      assert x !in init;
      assert NoDup(init);
      DeliverBatchClosedForm(st, s, init, now);
      DeliveredAllStep(st, s, init, x, now);
    }
  }

  /** One more delivery attempt extends the closed form by one id. */
  lemma DeliveredAllStep(st: Store, s: string, init: seq<string>, x: string, now: int)
    requires s in st.queues && NoDup(st.queues[s]) && x !in init
    ensures Transmit(DeliveredAll(st, s, init, now), x, s, Iss, now).store == DeliveredAll(st, s, init + [x], now)
  {
    var mid := DeliveredAll(st, s, init, now);
    var a0 := Accepted(st.bundles, init);
    var q := st.queues[s];
    var want := DeliveredAll(st, s, init + [x], now);
    if x in st.bundles && Iss !in st.bundles[x].hops {
      var acc := a0 + {x};
      assert Accepted(st.bundles, init + [x]) == acc;
      var r := Deliver(mid, x, s, Iss, now);
      assert r.queues == want.queues by {
        assert RemoveFirst(mid.queues[s], x) == Without(q, acc) by {
          WithoutNoDup(q, a0);
          RemoveFirstIsWithout(Without(q, a0), x);
          WithoutWithout(q, a0, {x});
        }
      }
      assert r.bundles == want.bundles by {
        assert r.bundles.Keys == want.bundles.Keys;
        forall y | y in st.bundles
          ensures r.bundles[y] == want.bundles[y]
        {
          if y != x {
            assert (y in acc) == (y in a0);
          }
        }
      }
    } else {
      assert Accepted(st.bundles, init + [x]) == a0;
    }
  }

  /** With the ISS overhead only the first three ids of the queue are
      attempted: each of them not yet delivered to the ISS becomes DELIVERED
      and leaves the queue, every other bundle and every other queue is
      unchanged. */
  lemma ContactVisible(stations: set<string>, st: Store, s: string, next: Option<string>, now: int)
    requires Inv(stations, st) && s in st.queues && st.queues[s] != []
    ensures ContactKnown(st, s, true, next)
    ensures var r := Contact(st, s, true, next, now);
      var batch := Batch(st.queues[s]);
      && r == DeliveredAll(st, s, batch, now)
      && (forall x | x in st.bundles && x !in batch :: r.bundles[x] == st.bundles[x])
      && (forall x | x in batch :: Iss in r.bundles[x].hops)
      && (forall x | x in batch && Iss !in st.bundles[x].hops ::
            r.bundles[x].status == Delivered && x !in r.queues[s])
      && (forall t | t in st.queues && t != s :: r.queues[t] == st.queues[t])
  {
    var q := st.queues[s];
    var batch := Batch(q);
    assert QueueOk(s, q, st.bundles);
    assert NoDup(batch) by {
      assert forall i | 0 <= i < |batch| :: batch[i] == q[i];
    }
    DeliverBatchClosedForm(st, s, batch, now);
    var acc := Accepted(st.bundles, batch);
    WithoutElems(q, acc);
    forall x | x in batch
      ensures x in st.bundles
    {
      var i :| 0 <= i < |batch| && batch[i] == x;
      assert q[i] == x;
    }
  }

  /** Without the ISS overhead only the head of the queue, in insertion
      order, is handed to `transmit_bundle`; without a next station nothing
      happens. */
  lemma ContactNotVisible(st: Store, s: string, next: Option<string>, now: int)
    requires ContactKnown(st, s, false, next)
    ensures var r := Contact(st, s, false, next, now);
      && (s !in st.queues || st.queues[s] == [] || next.None? || next.value == "" ==> r == st)
      && (s in st.queues && st.queues[s] != [] && next.Some? && next.value != "" ==>
            r == Transmit(st, st.queues[s][0], s, next.value, now).store &&
            forall x | x in st.bundles && x != st.queues[s][0] :: r.bundles[x] == st.bundles[x])
  {
  }

  lemma {:induction false} DeliverBatchPreservesInv(stations: set<string>, st: Store, s: string, ids: seq<string>, now: int)
    requires Inv(stations, st) && s in st.queues
    ensures Inv(stations, DeliverBatch(st, s, ids, now))
    decreases |ids|
  {
    if ids != [] {
      DeliverBatchPreservesInv(stations, st, s, ids[..|ids| - 1], now);
      var mid := DeliverBatch(st, s, ids[..|ids| - 1], now);
      TransmitPreservesInv(stations, mid, ids[|ids| - 1], s, Iss, now);
    }
  }

  lemma ContactPreservesInv(stations: set<string>, st: Store, s: string, visible: bool, next: Option<string>, now: int)
    requires Inv(stations, st) && ContactKnown(st, s, visible, next)
    ensures Inv(stations, Contact(st, s, visible, next, now))
  {
    var q := if s in st.queues then st.queues[s] else [];
    if q != [] {
      if visible {
        DeliverBatchPreservesInv(stations, st, s, Batch(q), now);
      } else if next.Some? && next.value != "" {
        TransmitPreservesInv(stations, st, q[0], s, next.value, now);
      }
    }
  }

  // ---------------------------------------------------------------------
  // cleanup_expired

  /** The bundles `cleanup_expired` expires: past their TTL and not
      delivered. */
  function Doomed(bundles: map<string, Bundle>, now: int): set<string>
  {
    set x | x in bundles && IsExpired(bundles[x], now) && bundles[x].status != Delivered
  }

  /** The bundles of `d` marked EXPIRED and dropped from every queue. */
  function ExpireAll(st: Store, d: set<string>): (r: Store)
    ensures r.bundles.Keys == st.bundles.Keys && r.queues.Keys == st.queues.Keys
  {
    Store(map x | x in st.bundles :: if x in d then st.bundles[x].(status := Expired) else st.bundles[x],
          map s | s in st.queues :: Without(st.queues[s], d))
  }

  /** `cleanup_expired()`: doomed bundles become EXPIRED and leave every
      queue; no bundle is deleted, and a bundle is DELIVERED afterwards
      exactly when it was before. */
  function Cleanup(st: Store, now: int): (r: Store)
    ensures r.bundles.Keys == st.bundles.Keys && r.queues.Keys == st.queues.Keys
    ensures forall x | x in st.bundles :: r.bundles[x].status == Delivered <==> st.bundles[x].status == Delivered
  {
    ExpireAll(st, Doomed(st.bundles, now))
  }

  /** A bundle past its TTL that is not delivered becomes EXPIRED and its id
      leaves every queue; delivered and unexpired bundles are untouched; no
      bundle is deleted and every other queued id stays, in its order. */
  lemma CleanupSpec(st: Store, now: int)
    ensures var r := Cleanup(st, now);
      && r.bundles.Keys == st.bundles.Keys && r.queues.Keys == st.queues.Keys
      && (forall x | x in st.bundles && IsExpired(st.bundles[x], now) && st.bundles[x].status != Delivered ::
            r.bundles[x] == st.bundles[x].(status := Expired))
      && (forall x | x in st.bundles && (!IsExpired(st.bundles[x], now) || st.bundles[x].status == Delivered) ::
            r.bundles[x] == st.bundles[x])
      && (forall s, x | s in st.queues ::
            (x in r.queues[s] <==>
               x in st.queues[s] && !(x in st.bundles && IsExpired(st.bundles[x], now) && st.bundles[x].status != Delivered)))
      && (forall s | s in st.queues :: IsSubseq(r.queues[s], st.queues[s]))
  {
    var d := Doomed(st.bundles, now);
    forall s | s in st.queues
      ensures forall x :: x in Without(st.queues[s], d) <==> x in st.queues[s] && x !in d
      ensures IsSubseq(Without(st.queues[s], d), st.queues[s])
    {
      WithoutElems(st.queues[s], d);
      WithoutIsSubseq(st.queues[s], d);
    }
  }

  /** Expiring nothing changes nothing. */
  lemma ExpireNone(st: Store)
    ensures ExpireAll(st, {}) == st
  {
    forall s | s in st.queues
      ensures Without(st.queues[s], {}) == st.queues[s]
    {
      WithoutEmpty(st.queues[s]);
    }
  }

  /** One bundle marked EXPIRED and the first occurrence of its id dropped
      from every queue. */
  function ExpireOne(st: Store, id: string): (r: Store)
    requires id in st.bundles
    ensures r.bundles.Keys == st.bundles.Keys && r.queues.Keys == st.queues.Keys
  {
    Store(st.bundles[id := st.bundles[id].(status := Expired)],
          map s | s in st.queues :: RemoveFirst(st.queues[s], id))
  }

  /** Expiring the bundles of `d` and then one more is expiring them all at
      once, when no queue repeats an id. */
  lemma ExpireOneMore(st: Store, d: set<string>, id: string)
    requires id in st.bundles
    requires forall s | s in st.queues :: NoDup(st.queues[s])
    ensures ExpireAll(st, d + {id}) == ExpireOne(ExpireAll(st, d), id)
  {
    ExpireOneMoreBundles(st, d, id);
    ExpireOneMoreQueues(st, d, id);
  }

  lemma ExpireOneMoreBundles(st: Store, d: set<string>, id: string)
    requires id in st.bundles
    ensures ExpireAll(st, d + {id}).bundles == ExpireOne(ExpireAll(st, d), id).bundles
  {
    var n := ExpireAll(st, d + {id}).bundles;
    var e := ExpireOne(ExpireAll(st, d), id).bundles;
    forall x | x in st.bundles
      ensures n[x] == e[x]
    {
    }
  }

  lemma ExpireOneMoreQueues(st: Store, d: set<string>, id: string)
    requires id in st.bundles
    requires forall s | s in st.queues :: NoDup(st.queues[s])
    ensures ExpireAll(st, d + {id}).queues == ExpireOne(ExpireAll(st, d), id).queues
  {
    var n := ExpireAll(st, d + {id}).queues;
    var e := ExpireOne(ExpireAll(st, d), id).queues;
    forall s | s in st.queues
      ensures n[s] == e[s]
    {
      assert NoDup(st.queues[s]);
      DropStep(st.queues[s], d, id);
    }
  }

  /** Dropping one more id from a queue already filtered by `d`. */
  lemma DropStep(q: seq<string>, d: set<string>, id: string)
    requires NoDup(q)
    ensures RemoveFirst(Without(q, d), id) == Without(q, d + {id})
  {
    WithoutNoDup(q, d);
    RemoveFirstIsWithout(Without(q, d), id);
    WithoutWithout(q, d, {id});
  }

  lemma CleanupPreservesInv(stations: set<string>, st: Store, now: int)
    requires Inv(stations, st)
    ensures Inv(stations, Cleanup(st, now))
  {
    var r := Cleanup(st, now);
    var d := Doomed(st.bundles, now);
    forall s | s in r.queues
      ensures QueueOk(s, r.queues[s], r.bundles)
    {
      var q := st.queues[s];
      assert QueueOk(s, q, st.bundles);
      WithoutNoDup(q, d);
      WithoutElems(q, d);
      QueueOkShrink(s, q, r.queues[s], st.bundles);
      assert forall x | x in st.bundles :: r.bundles[x].hops == st.bundles[x].hops;
    }
  }

  /** A second sweep right after the first changes nothing. */
  lemma CleanupIdempotent(st: Store, now: int)
    ensures Cleanup(Cleanup(st, now), now) == Cleanup(st, now)
  {
    var r := Cleanup(st, now);
    var d := Doomed(st.bundles, now);
    assert Doomed(r.bundles, now) == d;
    forall s | s in r.queues
      ensures Without(r.queues[s], d) == r.queues[s]
    {
      WithoutWithout(st.queues[s], d, d);
      assert d + d == d;
    }
  }
}

=== FILE: manager.dfy ===
/** `DTNBundleManager` (backend/dtn_bundle_manager.py): the configured
    stations, the bundles keyed by id and one queue of bundle ids per
    station, changed in place by its methods. Each method is proved to
    follow the matching function of module Custody and to keep its
    invariant `Inv`. The current time and fresh bundle ids are supplied by
    the caller. */
module Manager {
  import opened Seqs
  import opened Bundles
  import opened QueueOrder
  import opened Custody

  /** After reads that marked the ids of `ids`, the view of station `s`
      is still the one it had before any read, so each read adds to the
      result of `get_all_queues` what a read of the initial state would:
      the order of the reads does not matter. */
  lemma AllQueuesStep(st: Store, done: set<string>, ids: set<string>, s: string, now: int,
                      mid: Store, view: seq<BundleRecord>)
    requires mid == Store(Sweep(st.bundles, ids, now), st.queues)
    requires view == StationQueue(mid, s, now)
    ensures AllQueues(st, done + {s}, now) == AllQueues(st, done, now)[s := view]
  {
    StationQueueAfterSweep(st, ids, s, now);
  }

  /** The ids queued at the stations of `done` and at `s`. */
  lemma QueuedInAdd(queues: map<string, seq<string>>, done: set<string>, s: string)
    ensures QueuedIn(queues, done + {s}) == QueuedIn(queues, done) + QueuedAt(queues, s)
  {
  }

  /** One entry of the station list given to the constructor. */
  datatype StationConfig = StationConfig(id: string, name: string)

  /** `{s["id"]: s["name"] for s in stations}`: a later entry with the same
      id replaces an earlier one. */
  function StationNames(configs: seq<StationConfig>): (m: map<string, string>)
    ensures forall i | 0 <= i < |configs| :: configs[i].id in m
    ensures forall s | s in m :: exists i | 0 <= i < |configs| :: configs[i].id == s
  {
    if configs == [] then map[]
    else
      var last := configs[|configs| - 1];
      StationNames(configs[..|configs| - 1])[last.id := last.name]
  }

  /** Each station keeps the name of its last entry in the list. */
  lemma {:induction false} StationNamesLastWins(configs: seq<StationConfig>, i: nat)
    requires i < |configs|
    requires forall j | i < j < |configs| :: configs[j].id != configs[i].id
    ensures StationNames(configs)[configs[i].id] == configs[i].name
    decreases |configs|
  {
    if i < |configs| - 1 {
      StationNamesLastWins(configs[..|configs| - 1], i);
    }
  }

  class BundleManager {
    var stations: map<string, string>
    var bundles: map<string, Bundle>
    var queues: map<string, seq<string>>

    ghost predicate Valid()
      reads this
    {
      Inv(stations.Keys, Store(bundles, queues))
    }

    /** The bundles and the queues together. */
    function State(): Store
      reads this
    {
      Store(bundles, queues)
    }

    /** `__init__`: every configured station starts with an empty queue and
        there are no bundles. */
    constructor (configs: seq<StationConfig>)
      ensures Valid()
      ensures stations == StationNames(configs)
      ensures bundles == map[]
      ensures queues.Keys == stations.Keys
      ensures forall s | s in queues :: queues[s] == []
    {
      var names := StationNames(configs);
      stations := names;
      bundles := map[];
      queues := map s | s in names :: [];
    }

    /** `create_bundle`: `id` stands for the uuid the source draws, so it is
        new; `source` must be a configured station, since its queue is
        indexed. */
    method CreateBundle(id: string, source: string, destination: string, payload: string, now: int,
                        priority: string := "NORMAL", ttlHours: int := 24) returns (b: Bundle)
      requires Valid()
      requires id !in bundles && source in queues
      modifies this
      ensures Valid() && stations == old(stations)
      ensures b == NewBundle(id, source, destination, payload, priority, ttlHours, now)
      ensures bundles == old(bundles)[id := b]
      ensures queues == old(queues)[source := old(queues)[source] + [id]]
    {
      var level := Normal;
      if Upper(priority) == "EXPEDITED" {
        level := Expedited;
      } else if Upper(priority) == "BULK" {
        level := Bulk;
      }
      b := Bundle(id, source, destination, payload, level, now, ttlHours,
                  Queued, source, None, None, [source]);
      bundles := bundles[id := b];
      queues := queues[source := queues[source] + [id]];
      CreatePreservesInv(stations.Keys, old(State()), b);
    }

    /** `transmit_bundle`: follows `Transmit`, passing through the transient
        TRANSMITTING and FORWARDED statuses on the way. */
    method TransmitBundle(id: string, from: string, to: string, now: int) returns (ok: bool)
      requires Valid() && TransmitKnown(State(), id, from, to)
      modifies this
      ensures Valid() && stations == old(stations)
      ensures Attempt(ok, State()) == Transmit(old(State()), id, from, to, now)
    {
      if id !in bundles || to in bundles[id].hops {
        return false;
      }
      TransmitPreservesInv(stations.Keys, State(), id, from, to, now);
      if to == Iss || to == bundles[id].destination {
        DeliverStep(id, from, to, now);
      } else {
        ForwardStep(id, from, to);
      }
      ok := true;
    }

    /** The delivery branch of `transmit_bundle`. */
    method DeliverStep(id: string, from: string, to: string, now: int)
      requires id in bundles && from in queues
      modifies this
      ensures stations == old(stations)
      ensures State() == Deliver(old(State()), id, from, to, now)
    {
      var b := bundles[id].(status := Transmitting);
      bundles := bundles[id := b];
      b := b.(status := Delivered, deliveredAt := Some(now), hops := b.hops + [to]);
      bundles := bundles[id := b];
      if id in queues[from] {
        queues := queues[from := RemoveFirst(queues[from], id)];
      }
    }

    /** The forwarding branch of `transmit_bundle`. */
    method ForwardStep(id: string, from: string, to: string)
      requires id in bundles && from in queues && to in queues
      modifies this
      ensures stations == old(stations)
      ensures State() == Forward(old(State()), id, from, to)
    {
      var b := bundles[id].(status := Transmitting);
      bundles := bundles[id := b];
      b := b.(status := Forwarded, custodian := to, forwardedTo := Some(to), hops := b.hops + [to]);
      bundles := bundles[id := b];
      if id in queues[from] {
        queues := queues[from := RemoveFirst(queues[from], id)];
      }
      queues := queues[to := queues[to] + [id]];
      b := b.(status := Queued);
      bundles := bundles[id := b];
      assert b == ForwardTo(old(bundles)[id], to);
    }

    /** `get_station_queue`: returns the live records sorted by priority and,
        on the way, marks every expired bundle of the queue EXPIRED while
        leaving it in the queue. */
    method GetStationQueue(s: string, now: int) returns (view: seq<BundleRecord>)
      requires Valid()
      modifies this
      ensures Valid() && stations == old(stations) && queues == old(queues)
      ensures bundles == Sweep(old(bundles), QueuedAt(queues, s), now)
      ensures view == StationQueue(old(State()), s, now)
      ensures s !in queues ==> view == [] && bundles == old(bundles)
    {
      view := ReadStation(s, now);
      SweepPreservesInv(stations.Keys, old(State()), QueuedAt(queues, s), now);
    }

    /** The body of `get_station_queue`, which needs no invariant. */
    method ReadStation(s: string, now: int) returns (view: seq<BundleRecord>)
      modifies this
      ensures stations == old(stations) && queues == old(queues)
      ensures bundles == Sweep(old(bundles), QueuedAt(queues, s), now)
      ensures view == StationQueue(old(State()), s, now)
    {
      var ids := if s in queues then queues[s] else [];
      view := ReadQueue(ids, now);
      view := SortByPriority(view);
    }

    /** The loop of `get_station_queue` over the ids `ids`: the records of
        the live bundles in queue order, with each expired bundle marked. */
    method ReadQueue(ids: seq<string>, now: int) returns (live: seq<BundleRecord>)
      modifies this
      ensures stations == old(stations) && queues == old(queues)
      ensures bundles == Sweep(old(bundles), Elems(ids), now)
      ensures live == LiveRecords(ids, old(bundles), now)
    {
      ghost var seen: set<string> := {};
      live := [];
      var i := 0;
      while i < |ids|
        invariant 0 <= i <= |ids|
        invariant queues == old(queues) && stations == old(stations)
        invariant forall x :: x in seen <==> x in ids[..i]
        invariant bundles == Sweep(old(bundles), seen, now)
        invariant live == LiveRecords(ids[..i], old(bundles), now)
      {
        var id := ids[i];
        assert ids[..i + 1] == ids[..i] + [id];
        LiveRecordsSnoc(ids[..i], id, old(bundles), now);
        SweepAdd(old(bundles), seen, id, now);
        if id in bundles {
          var b := bundles[id];
          if !IsExpired(b, now) {
            live := live + [ToRecord(b, now)];
          } else {
            bundles := bundles[id := b.(status := Expired)];
          }
        }
        seen := seen + {id};
        i := i + 1;
      }
      assert ids[..|ids|] == ids;
      assert seen == Elems(ids);
    }

    /** `get_all_queues`: the view of every configured station. The reads
        happen one station after another; the result does not depend on
        their order. */
    method GetAllQueues(now: int) returns (views: map<string, seq<BundleRecord>>)
      requires Valid()
      modifies this
      ensures Valid() && stations == old(stations) && queues == old(queues)
      ensures views == AllQueues(old(State()), stations.Keys, now)
      ensures bundles == Sweep(old(bundles), QueuedIn(queues, stations.Keys), now)
    {
      views := ReadAll(now);
      SweepPreservesInv(stations.Keys, old(State()), QueuedIn(queues, stations.Keys), now);
    }

    /** The loop of `get_all_queues`, which needs no invariant. */
    method ReadAll(now: int) returns (views: map<string, seq<BundleRecord>>)
      modifies this
      ensures stations == old(stations) && queues == old(queues)
      ensures views == AllQueues(old(State()), stations.Keys, now)
      ensures bundles == Sweep(old(bundles), QueuedIn(queues, stations.Keys), now)
    {
      ghost var st0 := State();
      views := map[];
      assert views == AllQueues(st0, {}, now);
      var todo := stations.Keys;
      ghost var done: set<string> := {};
      assert bundles == Sweep(bundles, QueuedIn(queues, done), now);
      while todo != {}
        invariant todo + done == stations.Keys && todo !! done
        invariant stations == old(stations) && queues == st0.queues
        invariant views == AllQueues(st0, done, now)
        invariant bundles == Sweep(st0.bundles, QueuedIn(queues, done), now)
        decreases todo
      {
        var s :| s in todo;
        var view := NextView(st0, done, s, now);
        views := views[s := view];
        todo := todo - {s};
        done := done + {s};
      }
    }

    /** One station's read inside `get_all_queues`: its view is the one the
        initial state would give, so it extends the result for the stations
        read so far. */
    method NextView(ghost st0: Store, ghost done: set<string>, s: string, now: int)
      returns (view: seq<BundleRecord>)
      requires queues == st0.queues
      requires bundles == Sweep(st0.bundles, QueuedIn(queues, done), now)
      modifies this
      ensures stations == old(stations) && queues == old(queues)
      ensures bundles == Sweep(st0.bundles, QueuedIn(queues, done + {s}), now)
      ensures AllQueues(st0, done + {s}, now) == AllQueues(st0, done, now)[s := view]
    {
      ghost var mid := State();
      view := ReadStation(s, now);
      AllQueuesStep(st0, done, QueuedIn(queues, done), s, now, mid, view);
      SweepTwice(st0.bundles, QueuedIn(queues, done), QueuedAt(queues, s), now);
      QueuedInAdd(queues, done, s);
    }

    /** `process_contact`: follows `Contact`, calling `TransmitBundle` for
        each id of the batch as it was on entry. */
    method ProcessContact(s: string, visible: bool, now: int, next: Option<string> := None)
      requires Valid() && ContactKnown(State(), s, visible, next)
      modifies this
      ensures Valid() && stations == old(stations)
      ensures State() == Contact(old(State()), s, visible, next, now)
      ensures s !in old(queues) || old(queues)[s] == [] ==> State() == old(State())
    {
      var q := if s in queues then queues[s] else [];
      if q == [] {
        return;
      }
      if visible {
        DeliverEach(s, Batch(q), now);
      } else if next.Some? && next.value != "" {
        var _ := TransmitBundle(q[0], s, next.value, now);
      }
    }

    /** The loop of `process_contact` under the ISS overhead: one delivery
        attempt to the ISS per id of `batch`, in order. */
    method DeliverEach(s: string, batch: seq<string>, now: int)
      requires Valid() && s in queues
      modifies this
      ensures Valid() && stations == old(stations)
      ensures State() == DeliverBatch(old(State()), s, batch, now)
    {
      var i := 0;
      while i < |batch|
        invariant 0 <= i <= |batch|
        invariant Valid() && stations == old(stations) && s in queues
        invariant State() == DeliverBatch(old(State()), s, batch[..i], now)
      {
        assert batch[..i + 1][..i] == batch[..i];
        var _ := TransmitBundle(batch[i], s, Iss, now);
        i := i + 1;
      }
      assert batch[..|batch|] == batch;
    }

    /** One step of `cleanup_expired`: the bundle is marked EXPIRED and
        its id leaves every queue. */
    method ExpireBundle(id: string)
      requires id in bundles
      modifies this
      ensures stations == old(stations)
      ensures State() == ExpireOne(old(State()), id)
    {
      bundles := bundles[id := bundles[id].(status := Expired)];
      ghost var want := ExpireOne(old(State()), id);
      DropFromQueues(id);
      assert forall s | s in queues :: queues[s] == want.queues[s];
    }

    /** The inner loop of `cleanup_expired`: drop the first occurrence of
        `id` from every queue that holds it. */
    method DropFromQueues(id: string)
      modifies this
      ensures stations == old(stations) && bundles == old(bundles)
      ensures queues.Keys == old(queues).Keys
      ensures forall s | s in queues :: queues[s] == RemoveFirst(old(queues)[s], id)
    {
      var todo := queues.Keys;
      while todo != {}
        invariant todo <= queues.Keys && queues.Keys == old(queues).Keys
        invariant stations == old(stations) && bundles == old(bundles)
        invariant forall s | s in queues ::
          queues[s] == if s in todo then old(queues)[s] else RemoveFirst(old(queues)[s], id)
        decreases todo
      {
        var s :| s in todo;
        if id in queues[s] {
          queues := queues[s := RemoveFirst(queues[s], id)];
        }
        todo := todo - {s};
      }
    }

    /** `cleanup_expired`: follows `Cleanup`, visiting the bundles one by
        one in any order. */
    method CleanupExpired(now: int)
      requires Valid()
      modifies this
      ensures Valid() && stations == old(stations)
      ensures State() == Cleanup(old(State()), now)
    {
      assert forall s | s in queues :: NoDup(queues[s]) by {
        forall s | s in queues ensures NoDup(queues[s]) {
          assert QueueOk(s, queues[s], bundles);
        }
      }
      CleanupPreservesInv(stations.Keys, State(), now);
      ExpireEach(now);
    }

    /** The loop of `cleanup_expired`, for queues without repeated ids. */
    method ExpireEach(now: int)
      requires forall s | s in queues :: NoDup(queues[s])
      modifies this
      ensures stations == old(stations)
      ensures State() == Cleanup(old(State()), now)
    {
      ghost var st0 := State();
      ghost var doomed := Doomed(bundles, now);
      var todo := bundles.Keys;
      ghost var done: set<string> := {};
      ExpireNone(st0);
      assert doomed * done == {};
      while todo != {}
        invariant todo + done == st0.bundles.Keys && todo !! done
        invariant stations == old(stations)
        invariant State() == ExpireAll(st0, doomed * done)
        decreases todo
      {
        var id :| id in todo;
        var b := bundles[id];
        assert b == st0.bundles[id];
        if IsExpired(b, now) && b.status != Delivered {
          ExpireOneMore(st0, doomed * done, id);
          ExpireBundle(id);
          assert doomed * (done + {id}) == doomed * done + {id};
        } else {
          assert doomed * (done + {id}) == doomed * done;
        }
        todo := todo - {id};
        done := done + {id};
      }
      assert doomed * done == doomed;
    }
  }
}

=== FILE: queue_order.dfy ===
/** The ordering of a station's queue view (`get_station_queue`): records
    are sorted by the rank of their priority name, EXPEDITED before NORMAL
    before BULK, and Python's sort is stable, so records of one rank keep
    their queue order. The rank table falls back to 99 for an unknown
    name. */
module QueueOrder {
  import opened Bundles

  const UnknownRank := 99

  /** `priority_order.get(name, 99)`: the three priority names rank 0, 1
      and 2 in order, and every other name falls back to 99. */
  function Rank(name: string): (r: nat)
    ensures r <= 2 <==> name in {"EXPEDITED", "NORMAL", "BULK"}
    ensures r == 0 <==> name == "EXPEDITED"
    ensures r > 2 ==> r == UnknownRank
  {
    if name == "EXPEDITED" then 0
    else if name == "NORMAL" then 1
    else if name == "BULK" then 2
    else UnknownRank
  }

  /** The records whose priority has rank `k`, in their original order. */
  function WithRank(rs: seq<BundleRecord>, k: nat): (r: seq<BundleRecord>)
    ensures |r| <= |rs|
    ensures forall i | 0 <= i < |r| :: Rank(r[i].priority) == k
  {
    if rs == [] then []
    else (if Rank(rs[0].priority) == k then [rs[0]] else []) + WithRank(rs[1..], k)
  }

  /** The stable sort by rank: the four possible ranks, one after the other.
      No record is lost or added. */
  function SortByPriority(rs: seq<BundleRecord>): (r: seq<BundleRecord>)
    ensures |r| == |rs|
  {
    var r := WithRank(rs, 0) + WithRank(rs, 1) + WithRank(rs, 2) + WithRank(rs, UnknownRank);
    assert |multiset(r)| == |multiset(rs)| by {
      BucketsPartition(rs);
    }
    r
  }

  predicate SortedByRank(rs: seq<BundleRecord>)
  {
    forall i, j | 0 <= i < j < |rs| :: Rank(rs[i].priority) <= Rank(rs[j].priority)
  }

  lemma {:induction false} WithRankAppend(a: seq<BundleRecord>, b: seq<BundleRecord>, k: nat)
    ensures WithRank(a + b, k) == WithRank(a, k) + WithRank(b, k)
    decreases |a|
  {
    if a == [] {
      assert a + b == b;
    } else {
      assert (a + b)[1..] == a[1..] + b;
      WithRankAppend(a[1..], b, k);
    }
  }

  /** Selecting one rank from records that all have rank `j`. */
  lemma {:induction false} WithRankOfUniform(rs: seq<BundleRecord>, j: nat, k: nat)
    requires forall i | 0 <= i < |rs| :: Rank(rs[i].priority) == j
    ensures WithRank(rs, k) == if j == k then rs else []
    decreases |rs|
  {
    if rs != [] {
      WithRankOfUniform(rs[1..], j, k);
    }
  }

  /** Each record occurs in the bucket of its own rank as often as in the
      whole sequence, and in no other bucket. */
  lemma {:induction false} WithRankCount(rs: seq<BundleRecord>, k: nat, r: BundleRecord)
    ensures multiset(WithRank(rs, k))[r] == if Rank(r.priority) == k then multiset(rs)[r] else 0
    decreases |rs|
  {
    if rs != [] {
      WithRankCount(rs[1..], k, r);
      assert rs == [rs[0]] + rs[1..];
    }
  }

  /** Every record lands in exactly one of the four buckets. */
  lemma BucketsPartition(rs: seq<BundleRecord>)
    ensures multiset(rs) ==
      multiset(WithRank(rs, 0)) + multiset(WithRank(rs, 1)) +
      multiset(WithRank(rs, 2)) + multiset(WithRank(rs, UnknownRank))
  {
    forall r
      ensures multiset(rs)[r] ==
        multiset(WithRank(rs, 0))[r] + multiset(WithRank(rs, 1))[r] +
        multiset(WithRank(rs, 2))[r] + multiset(WithRank(rs, UnknownRank))[r]
    {
      WithRankCount(rs, 0, r);
      WithRankCount(rs, 1, r);
      WithRankCount(rs, 2, r);
      WithRankCount(rs, UnknownRank, r);
    }
  }

  /** The queue view is a permutation of the live records. */
  lemma SortIsPermutation(rs: seq<BundleRecord>)
    ensures multiset(SortByPriority(rs)) == multiset(rs)
  {
    BucketsPartition(rs);
  }

  /** The queue view lists EXPEDITED first, then NORMAL, then BULK. */
  lemma SortIsOrdered(rs: seq<BundleRecord>)
    ensures SortedByRank(SortByPriority(rs))
  {
    var r := SortByPriority(rs);
    var a := |WithRank(rs, 0)|;
    var b := a + |WithRank(rs, 1)|;
    var c := b + |WithRank(rs, 2)|;
    assert forall i | 0 <= i < |r| ::
      Rank(r[i].priority) == (if i < a then 0 else if i < b then 1 else if i < c then 2 else UnknownRank)
    by {
      forall i | 0 <= i < |r|
        ensures Rank(r[i].priority) == (if i < a then 0 else if i < b then 1 else if i < c then 2 else UnknownRank)
      {
        if i < a {
          assert r[i] == WithRank(rs, 0)[i];
        } else if i < b {
          assert r[i] == WithRank(rs, 1)[i - a];
        } else if i < c {
          assert r[i] == WithRank(rs, 2)[i - b];
        } else {
          assert r[i] == WithRank(rs, UnknownRank)[i - c];
        }
      }
    }
  }

  /** The sort is stable: records of any one rank appear in the view in the
      same order as in the queue. */
  lemma SortIsStable(rs: seq<BundleRecord>, k: nat)
    ensures WithRank(SortByPriority(rs), k) == WithRank(rs, k)
  {
    var w0, w1, w2, w9 := WithRank(rs, 0), WithRank(rs, 1), WithRank(rs, 2), WithRank(rs, UnknownRank);
    assert SortByPriority(rs) == w0 + w1 + w2 + w9;
    WithRankOfBuckets(w0, w1, w2, w9, k);
    WithRankOfUniform(w0, 0, k);
    WithRankOfUniform(w1, 1, k);
    WithRankOfUniform(w2, 2, k);
    WithRankOfUniform(w9, UnknownRank, k);
    if k !in {0, 1, 2, UnknownRank} {
      NoOtherRank(rs, k);
    }
  }

  lemma WithRankOfBuckets(w0: seq<BundleRecord>, w1: seq<BundleRecord>, w2: seq<BundleRecord>, w9: seq<BundleRecord>, k: nat)
    ensures WithRank(w0 + w1 + w2 + w9, k) == WithRank(w0, k) + WithRank(w1, k) + WithRank(w2, k) + WithRank(w9, k)
  {
    WithRankAppend(w0 + w1 + w2, w9, k);
    WithRankAppend(w0 + w1, w2, k);
    WithRankAppend(w0, w1, k);
  }

  lemma {:induction false} NoOtherRank(rs: seq<BundleRecord>, k: nat)
    requires k !in {0, 1, 2, UnknownRank}
    ensures WithRank(rs, k) == []
    decreases |rs|
  {
    if rs != [] {
      NoOtherRank(rs[1..], k);
    }
  }

  /** The names a record can carry never reach the fallback rank. */
  lemma RecordRankIsKnown(b: Bundle, now: int)
    ensures Rank(ToRecord(b, now).priority) < UnknownRank
    ensures Rank(ToRecord(b, now).priority) == 0 <==> b.priority == Expedited
    ensures Rank(ToRecord(b, now).priority) == 2 <==> b.priority == Bulk
  {
  }
}

=== FILE: seqs.dfy ===
/** Sequence helpers for the station queues and hop lists: Python's
    `list.remove` (first occurrence only), filtering out a set of ids, and
    the absence of duplicates. */
module Seqs {

  /** No element occurs twice. */
  predicate NoDup<T(==)>(s: seq<T>)
  {
    forall i, j | 0 <= i < j < |s| :: s[i] != s[j]
  }

  /** The elements of `s`. */
  function Elems<T(!new)>(s: seq<T>): set<T>
  {
    set x | x in s
  }

  /** Python's `s.remove(x)` guarded by `if x in s`: drops the first
      occurrence of `x` and leaves `s` alone when `x` is absent. */
  function RemoveFirst<T(==)>(s: seq<T>, x: T): (r: seq<T>)
    ensures x !in s ==> r == s
    ensures x in s ==> |r| == |s| - 1
  {
    if s == [] then []
    else if s[0] == x then s[1..]
    else [s[0]] + RemoveFirst(s[1..], x)
  }

  /** Exactly one occurrence of `x` goes, when there is one; every other
      element keeps its count. */
  lemma {:induction false} RemoveFirstCounts<T>(s: seq<T>, x: T)
    ensures multiset(RemoveFirst(s, x)) == multiset(s) - multiset{x}
    decreases |s|
  {
    if s != [] {
      assert s == [s[0]] + s[1..];
      if s[0] != x {
        RemoveFirstCounts(s[1..], x);
      }
    }
  }

  /** It is the first occurrence that goes: the elements before it and
      after it keep their order. */
  lemma {:induction false} RemoveFirstAt<T>(s: seq<T>, x: T, i: nat)
    requires i < |s| && s[i] == x && x !in s[..i]
    ensures RemoveFirst(s, x) == s[..i] + s[i + 1..]
    decreases i
  {
    if i > 0 {
      assert s[0] != x by {
        assert s[0] in s[..i];
      }
      assert s[1..][..i - 1] == s[1..i];
      RemoveFirstAt(s[1..], x, i - 1);
      assert s[..i] == [s[0]] + s[1..i];
      assert s[1..][i..] == s[i + 1..];
    }
  }

  /** The elements of `s` that are not in `d`, in their original order. */
  function Without<T(==)>(s: seq<T>, d: set<T>): (r: seq<T>)
    ensures |r| <= |s|
  {
    if s == [] then []
    else Without(s[..|s| - 1], d) + (if s[|s| - 1] in d then [] else [s[|s| - 1]])
  }

  /** The filter keeps exactly the elements outside `d`. */
  lemma {:induction false} WithoutElems<T>(s: seq<T>, d: set<T>)
    ensures forall x :: x in Without(s, d) <==> x in s && x !in d
    decreases |s|
  {
    if s != [] {
      var init := s[..|s| - 1];
      WithoutElems(init, d);
      assert s == init + [s[|s| - 1]];
    }
  }

  lemma {:induction false} WithoutAppend<T>(s: seq<T>, t: seq<T>, d: set<T>)
    ensures Without(s + t, d) == Without(s, d) + Without(t, d)
    decreases |t|
  {
    if t == [] {
      assert s + t == s;
    } else {
      var u := t[..|t| - 1];
      assert (s + t)[..|s + t| - 1] == s + u;
      WithoutAppend(s, u, d);
    }
  }

  lemma {:induction false} WithoutEmpty<T>(s: seq<T>)
    ensures Without(s, {}) == s
    decreases |s|
  {
    if s != [] {
      WithoutEmpty(s[..|s| - 1]);
      assert s == s[..|s| - 1] + [s[|s| - 1]];
    }
  }

  /** `a` is `b` with some elements left out, the rest in their order. */
  predicate IsSubseq<T(==)>(a: seq<T>, b: seq<T>)
    decreases |b|
  {
    a == [] ||
    (b != [] &&
     ((a[|a| - 1] == b[|b| - 1] && IsSubseq(a[..|a| - 1], b[..|b| - 1])) ||
      IsSubseq(a, b[..|b| - 1])))
  }

  /** The filter keeps the order of the elements it keeps. */
  lemma {:induction false} WithoutIsSubseq<T>(s: seq<T>, d: set<T>)
    ensures IsSubseq(Without(s, d), s)
    decreases |s|
  {
    if s != [] {
      var init, last := s[..|s| - 1], s[|s| - 1];
      WithoutIsSubseq(init, d);
      var w := Without(s, d);
      assert s[..|s| - 1] == init;
      if last !in d {
        assert w == Without(init, d) + [last];
        assert w[|w| - 1] == last && w[..|w| - 1] == Without(init, d);
      } else {
        assert w == Without(init, d);
      }
    }
  }

  /** Filtering by `a` and then by `b` is filtering by `a + b`. */
  lemma {:induction false} WithoutWithout<T>(s: seq<T>, a: set<T>, b: set<T>)
    ensures Without(Without(s, a), b) == Without(s, a + b)
    decreases |s|
  {
    if s != [] {
      var init, last := s[..|s| - 1], s[|s| - 1];
      WithoutWithout(init, a, b);
      var tail := if last in a then [] else [last];
      WithoutAppend(Without(init, a), tail, b);
      if last !in a {
        assert Without(tail, b) == Without([], b) + (if last in b then [] else [last]);
      }
    }
  }

  lemma {:induction false} WithoutNoDup<T>(s: seq<T>, d: set<T>)
    requires NoDup(s)
    ensures NoDup(Without(s, d))
    decreases |s|
  {
    if s != [] {
      var init, last := s[..|s| - 1], s[|s| - 1];
      assert last !in init;
      WithoutNoDup(init, d);
      WithoutElems(init, d);
    }
  }

  lemma NoDupAppend<T>(s: seq<T>, x: T)
    requires NoDup(s) && x !in s
    ensures NoDup(s + [x])
  {
  }

  /** Filtering from the front: the head, unless filtered out, then the
      filtered tail. */
  lemma {:induction false} WithoutCons<T>(h: T, t: seq<T>, d: set<T>)
    ensures Without([h] + t, d) == (if h in d then [] else [h]) + Without(t, d)
    decreases |t|
  {
    if t == [] {
      assert [h] + t == [h];
      assert [h][..0] == [];
    } else {
      var u, y := t[..|t| - 1], t[|t| - 1];
      assert ([h] + t)[..|[h] + t| - 1] == [h] + u;
      WithoutCons(h, u, d);
    }
  }

  /** Removing the first occurrence removes every occurrence when there are
      no duplicates. */
  lemma {:induction false} RemoveFirstIsWithout<T>(s: seq<T>, x: T)
    requires NoDup(s)
    ensures RemoveFirst(s, x) == Without(s, {x})
    decreases |s|
  {
    if s != [] {
      var t := s[1..];
      assert s == [s[0]] + t;
      WithoutCons(s[0], t, {x});
      if s[0] == x {
        assert x !in t;
        WithoutAbsent(t, {x});
      } else {
        RemoveFirstIsWithout(t, x);
      }
    }
  }

  /** Filtering out elements that do not occur changes nothing. */
  lemma {:induction false} WithoutAbsent<T>(s: seq<T>, d: set<T>)
    requires forall i | 0 <= i < |s| :: s[i] !in d
    ensures Without(s, d) == s
    decreases |s|
  {
    if s != [] {
      WithoutAbsent(s[..|s| - 1], d);
    }
  }

  lemma {:induction false} RemoveFirstNoDup<T>(s: seq<T>, x: T)
    requires NoDup(s)
    ensures NoDup(RemoveFirst(s, x)) && x !in RemoveFirst(s, x)
    ensures forall i | 0 <= i < |s| && s[i] != x :: s[i] in RemoveFirst(s, x)
    ensures forall i | 0 <= i < |RemoveFirst(s, x)| :: RemoveFirst(s, x)[i] in s
    decreases |s|
  {
    if s != [] {
      var t := s[1..];
      assert s == [s[0]] + t;
      assert NoDup(t);
      if s[0] == x {
        assert x !in t;
      } else {
        RemoveFirstNoDup(t, x);
        var r := RemoveFirst(s, x);
        assert r == [s[0]] + RemoveFirst(t, x);
        assert s[0] !in RemoveFirst(t, x);
        forall i | 0 <= i < |s| && s[i] != x
          ensures s[i] in r
        {
          if i > 0 {
            assert s[i] == t[i - 1];
          }
        }
      }
    }
  }
}
